=== FILE: README.md ===
# Login screen and network errors of the delivery app

A Dafny model of two small pieces of the delivery-app challenge. Both are written in Swift.

- **The login screen** (`GSLoginViewController`). Its UIKit outlets become plain
  values in a `Screen` record:
  - the email and password texts, as optionals;
  - whether the login button is enabled;
  - the show-password button (flag, secure-entry mode and icon name);
  - the `errorInLogin` flag, the error label's height and text;
  - the colour scheme of each text field.

  The screen's actions are pure transitions over that record:
  - `viewDidLoad`;
  - editing-changed, begin-editing and end-editing on both fields;
  - the show-password press;
  - a failed authentication (`showErrorMessage`);
  - a tap on the login button (text hand-over and the connectivity gate).

  The button validator is `EmailValidator.LoginEnabled`, written branch for branch
  like `validateButton`. It is proved equal to a simpler rule: the email is longer
  than five characters and some "@" comes before some ".". The outer `contains(".")`
  test turns out to be redundant.
- **`NetworkError`**. This is the five-case error enum. Its `errorDescription` is
  proved total and injective, with an inverse that recovers the case from its message.

Modules:
- `Options`: Swift optionals and `??`.
- `EmailValidator`: the login-button rule.
- `PasswordToggle`: the show-password button.
- `LoginScreen`: the screen state and its events.
- `NetworkErrors`: the error enum and its messages.

Two facts from the code, as modelled:
- `resetErrorLogin` hides the label but never clears `errorInLogin`. So the flag,
  once raised, stays raised for the life of the screen.
- When the device is offline, the screen shows its no-connection message. It does
  not show the "E-mail ou senha incorretos" message, and it makes no request. The
  typed texts have still been handed to the view model first.

## Model

| member | source | states |
|---|---|---|
| NetworkErrors.ErrorDescription | solutions/devsprint-bruno-ramos-2/DeliveryAppChallenge/Modules/Foundation/Network/NetworkError.swift:20-33 | every case has a message (never nil), and every message starts with "Ocorreu um erro" |
| NetworkErrors.ExactlyFiveCases | solutions/devsprint-bruno-ramos-2/DeliveryAppChallenge/Modules/Foundation/Network/NetworkError.swift:10-16 | the enum has exactly five distinct cases, and every value is one of them |
| NetworkErrors.DescriptionsDistinct | solutions/devsprint-bruno-ramos-2/DeliveryAppChallenge/Modules/Foundation/Network/NetworkError.swift:22-31 | two different cases never share a message |
| NetworkErrors.DecodeAndNetworkTexts | solutions/devsprint-bruno-ramos-2/DeliveryAppChallenge/Modules/Foundation/Network/NetworkError.swift:22-31 | decodeError and networkError show their exact Portuguese texts |
| NetworkErrors.FindCase | solutions/devsprint-bruno-ramos-2/DeliveryAppChallenge/Modules/Foundation/Network/NetworkError.swift:20-33 | a search over a list of cases finds one whose message matches, or proves that none in the list has that message |
| NetworkErrors.CaseForDescription | solutions/devsprint-bruno-ramos-2/DeliveryAppChallenge/Modules/Foundation/Network/NetworkError.swift:20-33 | a message is recognised exactly when some case shows it, and the case found shows it |
| NetworkErrors.DescriptionRoundTrip | solutions/devsprint-bruno-ramos-2/DeliveryAppChallenge/Modules/Foundation/Network/NetworkError.swift:20-33 | recovering the case from its own message gives back that case |
| EmailValidator.FirstIndexOf | solutions/devsprint-pedro-menezes-1/DeliveryAppChallenge/Modules/Product/Scenes/GabrielaSillis/GSLoginViewController.swift:156 | finds the first position of the character, or reports it absent exactly when it does not occur |
| EmailValidator.OuterDotTestRedundant | solutions/devsprint-pedro-menezes-1/DeliveryAppChallenge/Modules/Product/Scenes/GabrielaSillis/GSLoginViewController.swift:150-167 | dropping the outer contains(".") test never changes the outcome |
| EmailValidator.LoginEnabled | solutions/devsprint-pedro-menezes-1/DeliveryAppChallenge/Modules/Product/Scenes/GabrielaSillis/GSLoginViewController.swift:150-167 | `validateButton`, branch for branch; its contract states that the button is enabled if and only if the email is longer than five characters and an "@" occurs before a "." |
| EmailValidator.NoAtDisablesLogin | solutions/devsprint-pedro-menezes-1/DeliveryAppChallenge/Modules/Product/Scenes/GabrielaSillis/GSLoginViewController.swift:150-165 | an email without "@" always keeps the button disabled |
| EmailValidator.ShortEmailDisablesLogin | solutions/devsprint-pedro-menezes-1/DeliveryAppChallenge/Modules/Product/Scenes/GabrielaSillis/GSLoginViewController.swift:151-154 | an email of at most five characters always keeps the button disabled |
| EmailValidator.DotOnlyBeforeAtDisablesLogin | solutions/devsprint-pedro-menezes-1/DeliveryAppChallenge/Modules/Product/Scenes/GabrielaSillis/GSLoginViewController.swift:156-162 | if no "." follows any "@", the button is disabled even when the outer test passes |
| EmailValidator.DotBeforeAtExample | solutions/devsprint-pedro-menezes-1/DeliveryAppChallenge/Modules/Product/Scenes/GabrielaSillis/GSLoginViewController.swift:150-162 | "a.b@cde" passes the outer test but is rejected by the suffix test |
| EmailValidator.ValidatorExamples | solutions/devsprint-pedro-menezes-1/DeliveryAppChallenge/Modules/Product/Scenes/GabrielaSillis/GSLoginViewController.swift:150-167 | "" and "a@b" are rejected; "ab@.com" and "a.b@c.com" are accepted |
| PasswordToggle.Initial | solutions/devsprint-pedro-menezes-1/DeliveryAppChallenge/Modules/Product/Scenes/GabrielaSillis/GSLoginViewController.swift:16 | the show-password flag starts set |
| PasswordToggle.ShowOrHidePasswordInput | solutions/devsprint-pedro-menezes-1/DeliveryAppChallenge/Modules/Product/Scenes/GabrielaSillis/GSLoginViewController.swift:215-227 | the field is masked exactly when the flag is clear, and the icon matches the mode |
| PasswordToggle.PressShow | solutions/devsprint-pedro-menezes-1/DeliveryAppChallenge/Modules/Product/Scenes/GabrielaSillis/GSLoginViewController.swift:40-43 | after any press the flag equals the secure-entry mode, the icon is "eye.slash" exactly when entry is not secure, and the flag has flipped |
| PasswordToggle.DoublePressRestores | solutions/devsprint-pedro-menezes-1/DeliveryAppChallenge/Modules/Product/Scenes/GabrielaSillis/GSLoginViewController.swift:40-43 | two presses restore the flag, and restore the whole state when it was consistent |
| PasswordToggle.InitialPresses | solutions/devsprint-pedro-menezes-1/DeliveryAppChallenge/Modules/Product/Scenes/GabrielaSillis/GSLoginViewController.swift:16-43 | from load, the first press reveals the password with "eye.slash"; the second masks it again with "eye" |
| PasswordToggle.PressesParity | solutions/devsprint-pedro-menezes-1/DeliveryAppChallenge/Modules/Product/Scenes/GabrielaSillis/GSLoginViewController.swift:40-43 | after n > 0 presses the state is consistent, and the flag is back to its start value exactly when n is even |
| LoginScreen.ValidateButton | solutions/devsprint-pedro-menezes-1/DeliveryAppChallenge/Modules/Product/Scenes/GabrielaSillis/GSLoginViewController.swift:150-167 | the button's state becomes the validator's verdict on the email (long enough, "@" before "."); nothing else changes |
| LoginScreen.ViewDidLoad | solutions/devsprint-pedro-menezes-1/DeliveryAppChallenge/Modules/Product/Scenes/GabrielaSillis/GSLoginViewController.swift:19-81 | `viewDidLoad` with `setupView` and `setupDefaultColorOfTextField`: the loaded screen keeps the storyboard texts, label text and toggle inputs, paints both fields in the default colours, satisfies the screen invariant, has the error label hidden, no login error and the flag set; `startNavigatingFlow` is called exactly when a session is stored |
| LoginScreen.SetErrorLogin | solutions/devsprint-pedro-menezes-1/DeliveryAppChallenge/Modules/Product/Scenes/GabrielaSillis/GSLoginViewController.swift:128-134 | raises the error flag, shows the 20-point label with the message, paints both fields as errors; texts, button and toggle are untouched |
| LoginScreen.ResetErrorLogin | solutions/devsprint-pedro-menezes-1/DeliveryAppChallenge/Modules/Product/Scenes/GabrielaSillis/GSLoginViewController.swift:136-145 | hides the label and repaints the fields by which one is focused; the flag and everything else are unchanged |
| LoginScreen.Step | solutions/devsprint-pedro-menezes-1/DeliveryAppChallenge/Modules/Product/Scenes/GabrielaSillis/GSLoginViewController.swift:95-145 | the editing handlers (95-145), the show-password action (40-43) and a failed authentication (`failureAuthenticationRequest` and `showErrorMessage`, 242-245 and 210-213) as one event step: typing puts the text on screen and re-validates the button from the email; focusing a field resets the error display after a failed login and otherwise paints it for editing; leaving a field paints it in the default colours; a press flips the toggle; a failed login shows "E-mail ou senha incorretos". Every event keeps the screen invariant (button matches the email, a shown label implies an error); it never clears the error flag or breaks a consistent toggle |
| LoginScreen.Run | solutions/devsprint-pedro-menezes-1/DeliveryAppChallenge/Modules/Product/Scenes/GabrielaSillis/GSLoginViewController.swift:95-145 | any sequence of the events `Step` handles, including show-password presses (40-43) and failed authentications (210-213, 242-245), preserves the invariant, never clears the error flag, and never breaks a consistent toggle |
| LoginScreen.ErrorFlagSurvivesReset | solutions/devsprint-pedro-menezes-1/DeliveryAppChallenge/Modules/Product/Scenes/GabrielaSillis/GSLoginViewController.swift:128-145 | after an error is set and then reset, the label is hidden but the flag is still raised |
| LoginScreen.PasswordIgnored | solutions/devsprint-pedro-menezes-1/DeliveryAppChallenge/Modules/Product/Scenes/GabrielaSillis/GSLoginViewController.swift:120-122 | event runs that differ only in password texts reach screens that differ only in the password, with the same button state |
| LoginScreen.SendTextFieldData | solutions/devsprint-pedro-menezes-1/DeliveryAppChallenge/Modules/Product/Scenes/GabrielaSillis/GSLoginViewController.swift:204-208 | a present text is sent as is, and a missing text is sent as "" |
| LoginScreen.CheckConnectivity | solutions/devsprint-pedro-menezes-1/DeliveryAppChallenge/Modules/Product/Scenes/GabrielaSillis/GSLoginViewController.swift:194-202 | authentication is requested if and only if the device is connected |
| LoginScreen.LoginPressed | solutions/devsprint-pedro-menezes-1/DeliveryAppChallenge/Modules/Product/Scenes/GabrielaSillis/GSLoginViewController.swift:35-38 | the credentials are handed over whatever the connectivity; authentication is requested exactly when connected |
| LoginScreen.Tap | solutions/devsprint-pedro-menezes-1/DeliveryAppChallenge/Modules/Product/Scenes/GabrielaSillis/GSLoginViewController.swift:169-177 | a tap produces an action exactly when the button is enabled, and that action is the login button's: the texts on screen (a missing one as "") are handed over, and authentication is requested exactly when connected |
| LoginScreen.RequestOnlyWhenValidAndOnline | solutions/devsprint-pedro-menezes-1/DeliveryAppChallenge/Modules/Product/Scenes/GabrielaSillis/GSLoginViewController.swift:194-202 | on a reachable screen, a tap requests authentication exactly when the email passes the validator and the device is online; the email sent is the text on screen |

## Left out

- EmailValidator.LoginEnabled: Swift's `String` works on grapheme clusters, while the model works on the `char`s of a `seq<char>`. This affects `count` (the "longer than five" test) and also `contains` and `firstIndex(of:)` (the "@" and "." tests). Take `"a@\u{301}b.com"`, an "@" followed by a combining acute accent. Swift sees no "@" Character there, so it disables the button, either at the outer test or at the `else` of lines 163-165. The model finds '@' at index 1 and enables it. That `else` branch (the text contains "@" but no first "@" is found) can never be taken in the model. In Swift it can be taken when `contains("@")` resolves to Foundation's substring search rather than the Character search. No case folding or Unicode normalisation is modelled.
- UIKit presentation is not modelled. This covers colours, corner radii, button styling, the tap gesture recognizer, the status bar style and image loading. Field colours appear only as the three-valued `FieldStyle`, and the button icon only as its system-image name.
- Navigation is left out: the coordinator's reset-password, create-account, start-flow and alert calls. The coordinator is not part of this model. `ViewDidLoad` only reports whether `startNavigatingFlow` is called.
- LoginScreen.ViewDidLoad: `startNavigatingFlow` is called before the coordinator is given its controller. Whether navigation then really happens depends on the coordinator, which is not part of this model.
- Session persistence is left out. The `UserDefaultsManager` store is not part of this model. "Already logged in" is an input boolean of `ViewDidLoad`, and the success delegate's save-and-navigate path is not modelled.
- Connectivity: the `ConnectivityManager` flag is an input boolean.
- The view model's authentication request and the loading-view callbacks are not part of this model. A failed request enters only as the `AuthenticationFailed` event.
- `DispatchQueue.main.async` hops are not modelled. The model treats every event as applied in order.
- The DEBUG-only prefill of the text fields is not modelled. Initial texts come from the `Storyboard` input.
- Storyboard-defined values are inputs of `ViewDidLoad`, because the controller does not set them: the initial texts, the secure-entry mode, the button icon and the error label's text.
- LoginScreen.ValidateButton: requires the email text to be present. `validateButton` force-unwraps it, and a nil text is a crash in the source, not a disabled button.
- LoginScreen.ViewDidLoad: requires the email text to be present, for the same reason: it runs `validateButton`, which force-unwraps that text.
- LoginScreen.Step: requires the email text to be present, for the same reason: its editing events run `validateButton`, which force-unwraps that text.
- LoginScreen.Run: requires the email text to be present, for the same reason: its editing events run `validateButton`, which force-unwraps that text.
- LoginScreen.Tap: the rule that a disabled button delivers no action comes from UIKit, not from the controller.

=== FILE: email_validator.dfy ===
/** The rule that enables the login button: a plausibility check on the email
    text built from substring tests, with no regular expression. Lengths are
    counted in `char`s (see README for the difference from Swift's
    grapheme-cluster `count`). */
module EmailValidator {

  import opened Options

  /** Minimum length the email must exceed. */
  const MinEmailLength: nat := 5

  /** Swift's `firstIndex(of:)`: where `ch` first occurs in `text`, if anywhere. */
  function FirstIndexOf(text: string, ch: char): (r: Option<nat>)
    ensures r.None? <==> ch !in text
    ensures r.Some? ==> r.value < |text| && text[r.value] == ch && ch !in text[..r.value]
  {
    if |text| == 0 then None
    else if text[0] == ch then Some(0)
    else
      var rest := FirstIndexOf(text[1..], ch);
      if rest.None? then None else Some(rest.value + 1)
  }

  /** `validateButton`, branch for branch: the outer test rejects a text without
      "." or "@" or of length at most five; otherwise the button is enabled when
      the suffix starting at the first "@" contains ".". In simpler words: the
      email is longer than five characters and some "@" comes before some ".". */
  predicate LoginEnabled(email: string)
    ensures LoginEnabled(email) <==> |email| > MinEmailLength && AtBeforeDot(email)
  {
    if '.' !in email || '@' !in email || |email| <= MinEmailLength then
      false
    else
      match FirstIndexOf(email, '@')
      case Some(at) => '.' in email[at..]
      case None => false
  }

  /** The same rule without the outer "." test. */
  predicate SimplifiedLoginEnabled(email: string) {
    match FirstIndexOf(email, '@')
    case Some(at) => '.' in email[at..] && |email| > MinEmailLength
    case None => false
  }

  /** Some "@" occurs strictly before some ".". */
  ghost predicate AtBeforeDot(email: string) {
    exists i, k :: 0 <= i < k < |email| && email[i] == '@' && email[k] == '.'
  }

  /** The outer `contains(".")` test is implied by the suffix test, so dropping it
      changes nothing. */
  lemma OuterDotTestRedundant(email: string)
    ensures LoginEnabled(email) == SimplifiedLoginEnabled(email)
  {
    match FirstIndexOf(email, '@')
    case Some(at) =>
      if '.' in email[at..] {
        var k :| 0 <= k < |email[at..]| && email[at..][k] == '.';
        assert email[at + k] == '.';
      }
    case None =>
  }

  /** Any email without "@" keeps the button disabled. */
  lemma NoAtDisablesLogin(email: string)
    requires '@' !in email
    ensures !LoginEnabled(email)
  {
  }

  /** Any email of at most five characters keeps the button disabled. */
  lemma ShortEmailDisablesLogin(email: string)
    requires |email| <= MinEmailLength
    ensures !LoginEnabled(email)
  {
  }

  /** When every "." precedes every "@", the outer test can pass but the suffix
      test fails, and the button stays disabled. */
  lemma DotOnlyBeforeAtDisablesLogin(email: string)
    requires forall i, k :: 0 <= i < k < |email| && email[i] == '@' ==> email[k] != '.'
    ensures !LoginEnabled(email)
  {
  }

  /** "a.b@cde" passes the outer test (it has ".", "@" and seven characters) yet
      the suffix "@cde" has no ".", so the button stays disabled. */
  lemma DotBeforeAtExample()
    ensures var e := "a.b@cde"; '.' in e && '@' in e && |e| > MinEmailLength && !LoginEnabled(e)
  {
    var e := "a.b@cde";
    assert e[1] == '.' && e[3] == '@';
    assert FirstIndexOf(e, '@') == Some(3) by {
      assert e[0] != '@' && e[1] != '@' && e[2] != '@';
    }
    assert e[3..] == "@cde";
  }

  /** Boundary examples: too short or without "." after "@" is rejected; a "."
      anywhere after the "@" is accepted. */
  lemma ValidatorExamples()
    ensures !LoginEnabled("") && !LoginEnabled("a@b")
    ensures LoginEnabled("ab@.com") && LoginEnabled("a.b@c.com")
  {
    var f := "ab@.com";
    assert f[2] == '@' && f[3] == '.';
    var g := "a.b@c.com";
    assert g[3] == '@' && g[5] == '.';
  }
}

=== FILE: login_screen.dfy ===
/** The login screen's state with its UIKit outlets reduced to plain values, and
    the events that change it: typing, focusing and leaving the two text fields,
    pressing the show-password button, a failed authentication, and a tap on the
    login button. */
module LoginScreen {

  import opened Options
  import EmailValidator
  import PasswordToggle

  /** Height of the error label while it shows a message, and while it is hidden. */
  const ErrorLabelShownHeight: int := 20
  const ErrorLabelHiddenHeight: int := 0

  /** Message shown when authentication fails. */
  const LoginErrorMessage: string := "E-mail ou senha incorretos"

  datatype Field = EmailField | PasswordField

  /** The colour scheme of a text field (`setDefaultColor`, `setEditingColor`,
      `setErrorColor`). */
  datatype FieldStyle = DefaultStyle | EditingStyle | ErrorStyle

  datatype Screen = Screen(
    emailText: Option<string>,
    passwordText: Option<string>,
    loginEnabled: bool,
    toggle: PasswordToggle.Toggle,
    errorInLogin: bool,
    errorLabelHeight: int,
    errorLabelText: Option<string>,
    emailStyle: FieldStyle,
    passwordStyle: FieldStyle)

  /** What the storyboard puts on screen before `viewDidLoad`. */
  datatype Storyboard = Storyboard(
    emailText: Option<string>,
    passwordText: Option<string>,
    secureEntry: bool,
    iconName: string,
    errorLabelText: Option<string>)

  /** The screen after `viewDidLoad`, and whether the coordinator's
      `startNavigatingFlow` was called because a session is already stored. */
  datatype Launch = Launch(screen: Screen, startNavigatingFlow: bool)

  /** What a login tap asks for once the credentials are handed over. */
  datatype Decision = ShowNoInternetConnection | RequestAuthentication

  datatype Credentials = Credentials(email: string, password: string)

  datatype Submission = Submission(credentials: Credentials, decision: Decision)

  datatype Event =
    | EmailEditingChanged(text: string)
    | PasswordEditingChanged(text: string)
    | BeginEditing(field: Field)
    | EndEditing(field: Field)
    | ShowPasswordPressed
    | AuthenticationFailed

  /** The email field holds a text; `validateButton` force-unwraps it. */
  predicate Loaded(s: Screen) {
    s.emailText.Some?
  }

  /** What every reachable screen satisfies: the button reflects the current email,
      a shown error label belongs to a login error, and only a login error paints a
      field in the error colours. */
  ghost predicate Invariant(s: Screen) {
    && Loaded(s)
    && s.loginEnabled == EmailValidator.LoginEnabled(s.emailText.value)
    && (s.errorLabelHeight == ErrorLabelHiddenHeight
        || (s.errorLabelHeight == ErrorLabelShownHeight && s.errorInLogin))
    && (s.emailStyle == ErrorStyle ==> s.errorInLogin)
    && (s.passwordStyle == ErrorStyle ==> s.errorInLogin)
  }

  /** `validateButton`: the button follows the email text, never the password. */
  function ValidateButton(s: Screen): (r: Screen)
    requires Loaded(s)
    ensures r.loginEnabled <==> (|s.emailText.value| > EmailValidator.MinEmailLength
                                 && EmailValidator.AtBeforeDot(s.emailText.value))
    ensures r.(loginEnabled := s.loginEnabled) == s
  {
    s.(loginEnabled := EmailValidator.LoginEnabled(s.emailText.value))
  }

  /** `viewDidLoad`: check for a stored session, then hide the error label, paint
      both fields in the default colours and validate the button. */
  function ViewDidLoad(board: Storyboard, alreadyLoggedIn: bool): (r: Launch)
    requires board.emailText.Some?
    ensures Invariant(r.screen)
    ensures r.startNavigatingFlow == alreadyLoggedIn
    ensures !r.screen.errorInLogin && r.screen.errorLabelHeight == ErrorLabelHiddenHeight
    ensures r.screen.toggle.showPassword
    ensures r.screen.emailText == board.emailText && r.screen.passwordText == board.passwordText
    ensures r.screen.emailStyle == DefaultStyle && r.screen.passwordStyle == DefaultStyle
    ensures r.screen.toggle == PasswordToggle.Initial(board.secureEntry, board.iconName)
    ensures r.screen.errorLabelText == board.errorLabelText
  {
    var screen := Screen(
      board.emailText, board.passwordText,
      true,
      PasswordToggle.Initial(board.secureEntry, board.iconName),
      false,
      ErrorLabelHiddenHeight,
      board.errorLabelText,
      DefaultStyle, DefaultStyle);
    Launch(ValidateButton(screen), alreadyLoggedIn)
  }

  /** `setErrorLogin`: raise the flag, show the label with `message` and paint both
      fields in the error colours. */
  function SetErrorLogin(s: Screen, message: string): (r: Screen)
    ensures r.errorInLogin && r.errorLabelHeight == ErrorLabelShownHeight
    ensures r.errorLabelText == Some(message)
    ensures r.emailStyle == ErrorStyle && r.passwordStyle == ErrorStyle
    ensures r.emailText == s.emailText && r.passwordText == s.passwordText
    ensures r.loginEnabled == s.loginEnabled && r.toggle == s.toggle
  {
    s.(errorInLogin := true,
       errorLabelHeight := ErrorLabelShownHeight,
       errorLabelText := Some(message),
       emailStyle := ErrorStyle,
       passwordStyle := ErrorStyle)
  }

  /** `resetErrorLogin`: hide the label and repaint the fields, the focused email
      field in the editing colours. The flag itself is left as it is. */
  function ResetErrorLogin(s: Screen, focused: Field): (r: Screen)
    ensures r.errorLabelHeight == ErrorLabelHiddenHeight
    ensures r.errorInLogin == s.errorInLogin
    ensures r.emailStyle == (if focused == EmailField then EditingStyle else DefaultStyle)
    ensures r.passwordStyle == DefaultStyle
    ensures r.(errorLabelHeight := s.errorLabelHeight, emailStyle := s.emailStyle,
               passwordStyle := s.passwordStyle) == s
  {
    var cleared := s.(errorLabelHeight := ErrorLabelHiddenHeight);
    if focused == EmailField then
      cleared.(emailStyle := EditingStyle, passwordStyle := DefaultStyle)
    else
      cleared.(emailStyle := DefaultStyle, passwordStyle := DefaultStyle)
  }

  /** Paints one field. */
  function Paint(s: Screen, field: Field, style: FieldStyle): Screen {
    match field
    case EmailField => s.(emailStyle := style)
    case PasswordField => s.(passwordStyle := style)
  }

  /** The screen after one event: the typed text lands on screen and re-runs the
      validation; focusing a field after a failed login resets the error display,
      otherwise it paints the field for editing; leaving a field repaints it in the
      default colours; a failed login shows the fixed message. */
  function Step(s: Screen, e: Event): (r: Screen)
    requires Loaded(s)
    ensures Loaded(r)
    ensures Invariant(s) ==> Invariant(r)
    ensures s.errorInLogin ==> r.errorInLogin
    ensures PasswordToggle.Consistent(s.toggle) ==> PasswordToggle.Consistent(r.toggle)
    ensures e.EmailEditingChanged? ==>
      r.emailText == Some(e.text) && r.loginEnabled == EmailValidator.LoginEnabled(e.text)
    ensures e.PasswordEditingChanged? ==>
      && r.passwordText == Some(e.text) && r.emailText == s.emailText
      && r.loginEnabled == EmailValidator.LoginEnabled(s.emailText.value)
    ensures e.BeginEditing? && s.errorInLogin ==> r == ResetErrorLogin(s, e.field)
    ensures e.BeginEditing? && !s.errorInLogin ==> r == Paint(s, e.field, EditingStyle)
    ensures e.EndEditing? ==> r == Paint(s, e.field, DefaultStyle)
    ensures e.ShowPasswordPressed? ==> r == s.(toggle := PasswordToggle.PressShow(s.toggle))
    ensures e.AuthenticationFailed? ==>
      && r == SetErrorLogin(s, LoginErrorMessage)
      && r.errorLabelText == Some(LoginErrorMessage) && r.errorLabelHeight == ErrorLabelShownHeight
  {
    match e
    case EmailEditingChanged(text) => ValidateButton(s.(emailText := Some(text)))
    case PasswordEditingChanged(text) => ValidateButton(s.(passwordText := Some(text)))
    case BeginEditing(field) =>
      if s.errorInLogin then ResetErrorLogin(s, field) else Paint(s, field, EditingStyle)
    case EndEditing(field) => Paint(s, field, DefaultStyle)
    case ShowPasswordPressed => s.(toggle := PasswordToggle.PressShow(s.toggle))
    case AuthenticationFailed => SetErrorLogin(s, LoginErrorMessage)
  }

  /** The screen after a sequence of events. */
  function Run(s: Screen, events: seq<Event>): (r: Screen)
    requires Loaded(s)
    ensures Loaded(r)
    ensures Invariant(s) ==> Invariant(r)
    ensures s.errorInLogin ==> r.errorInLogin
    ensures PasswordToggle.Consistent(s.toggle) ==> PasswordToggle.Consistent(r.toggle)
    decreases |events|
  {
    if |events| == 0 then s else Run(Step(s, events[0]), events[1..])
  }

  /** Once raised, the login-error flag stays raised: hiding the label does not
      lower it. */
  lemma ErrorFlagSurvivesReset(s: Screen, message: string, focused: Field)
    ensures var r := ResetErrorLogin(SetErrorLogin(s, message), focused);
      r.errorInLogin && r.errorLabelHeight == ErrorLabelHiddenHeight
  {
  }

  /** The two screens differ at most in the password text. */
  predicate EqualExceptPassword(a: Screen, b: Screen) {
    a.(passwordText := None) == b.(passwordText := None)
  }

  /** The two event sequences differ at most in the texts of password edits. */
  predicate AgreeExceptPasswords(es: seq<Event>, fs: seq<Event>) {
    && |es| == |fs|
    && forall i :: 0 <= i < |es| ==>
         es[i] == fs[i] || (es[i].PasswordEditingChanged? && fs[i].PasswordEditingChanged?)
  }

  /** Password edits re-run the validation, but the password never affects the
      button or anything else on screen except the password text itself. */
  lemma {:induction false} PasswordIgnored(s: Screen, t: Screen, es: seq<Event>, fs: seq<Event>)
    requires Loaded(s) && EqualExceptPassword(s, t)
    requires AgreeExceptPasswords(es, fs)
    ensures Loaded(t)
    ensures EqualExceptPassword(Run(s, es), Run(t, fs))
    ensures Run(s, es).loginEnabled == Run(t, fs).loginEnabled
    decreases |es|
  {
    assert t.emailText == t.(passwordText := None).emailText;
    if |es| > 0 {
      var s', t' := Step(s, es[0]), Step(t, fs[0]);
      assert EqualExceptPassword(s', t');
      assert AgreeExceptPasswords(es[1..], fs[1..]) by {
        forall i | 0 <= i < |es[1..]|
          ensures es[1..][i] == fs[1..][i]
            || (es[1..][i].PasswordEditingChanged? && fs[1..][i].PasswordEditingChanged?)
        {
          assert es[1..][i] == es[i + 1] && fs[1..][i] == fs[i + 1];
        }
      }
      PasswordIgnored(s', t', es[1..], fs[1..]);
    } else {
      assert Run(s, es).loginEnabled == Run(s, es).(passwordText := None).loginEnabled;
    }
  }

  /** `sendTextFieldDataToViewModel`: a missing text is sent as the empty string. */
  function SendTextFieldData(s: Screen): (c: Credentials)
    ensures s.emailText.None? ==> c.email == ""
    ensures s.passwordText.None? ==> c.password == ""
    ensures s.emailText.Some? ==> c.email == s.emailText.value
    ensures s.passwordText.Some? ==> c.password == s.passwordText.value
  {
    Credentials(s.emailText.GetOr(""), s.passwordText.GetOr(""))
  }

  /** `checkDeviceConnectivityAnduRequestAuthentication`: offline, the screen shows
      the no-connection message and returns; online, it asks for authentication. */
  function CheckConnectivity(connected: bool): (d: Decision)
    ensures d == RequestAuthentication <==> connected
  {
    if !connected then ShowNoInternetConnection else RequestAuthentication
  }

  /** The login button's action: hand the texts over, then pass the connectivity
      gate. The credentials are handed over whether or not the device is online. */
  function LoginPressed(s: Screen, connected: bool): (r: Submission)
    ensures r.decision == RequestAuthentication <==> connected
    ensures r.credentials == SendTextFieldData(s)
  {
    Submission(SendTextFieldData(s), CheckConnectivity(connected))
  }

  /** A tap on the login button: a disabled button delivers no action at all; an
      enabled one runs the button's action on the texts on screen. */
  function Tap(s: Screen, connected: bool): (r: Option<Submission>)
    ensures r.Some? <==> s.loginEnabled
    ensures r.Some? ==> r.value.credentials == SendTextFieldData(s)
    ensures r.Some? ==> (r.value.decision == RequestAuthentication <==> connected)
  {
    if s.loginEnabled then Some(LoginPressed(s, connected)) else None
  }

  /** On any reachable screen, a tap requests authentication exactly when the email
      passes the validator and the device is online, and the email it sends is the
      text on screen. */
  lemma RequestOnlyWhenValidAndOnline(s: Screen, connected: bool)
    requires Invariant(s)
    ensures var r := Tap(s, connected);
      (r.Some? && r.value.decision == RequestAuthentication)
        <==> EmailValidator.LoginEnabled(s.emailText.value) && connected
    ensures Tap(s, connected).Some? ==> Tap(s, connected).value.credentials.email == s.emailText.value
  {
  }
}

=== FILE: network_error.dfy ===
/** The failure kinds of the delivery app's network layer and the localized
    (Portuguese) message each one shows to the user. */
module NetworkErrors {

  import opened Options

  /** Swift's `enum NetworkError: Error`, one constructor per case. */
  datatype NetworkError =
    | DecodeError
    | NoData
    | InvalidURL
    | InvalidStatusCode
    | NetworkFailure  // Swift's `.networkError`

  /** Every case, in declaration order. */
  const AllCases: seq<NetworkError> := [DecodeError, NoData, InvalidURL, InvalidStatusCode, NetworkFailure]

  /** The prefix every message shares. */
  const MessagePrefix: string := "Ocorreu um erro"

  /** `errorDescription` of the `LocalizedError` conformance. Its type is `String?`,
      but no case answers `nil`, and every message opens with the shared prefix. */
  function ErrorDescription(e: NetworkError): (r: Option<string>)
    ensures r.Some?
    ensures |MessagePrefix| < |r.value| && r.value[..|MessagePrefix|] == MessagePrefix
  {
    match e
    case DecodeError => Some("Ocorreu um erro com decode dos dados")
    case NoData => Some("Ocorreu um erro com os dados")
    case InvalidURL => Some("Ocorreu um erro com a url")
    case InvalidStatusCode => Some("Ocorreu um erro com o status code")
    case NetworkFailure => Some("Ocorreu um erro,verifique sua conexão")
  }

  /** The enumeration has exactly the five cases of the declaration, each listed once. */
  lemma ExactlyFiveCases(e: NetworkError)
    ensures |AllCases| == 5
    ensures e in AllCases
    ensures forall i, j :: 0 <= i < j < |AllCases| ==> AllCases[i] != AllCases[j]
  {
  }

  /** Different cases never share a message: the mapping is injective. */
  lemma DescriptionsDistinct(e1: NetworkError, e2: NetworkError)
    ensures e1 != e2 ==> ErrorDescription(e1) != ErrorDescription(e2)
  {
    if e1 != e2 {
      // the five messages have pairwise different lengths
      assert |ErrorDescription(e1).value| != |ErrorDescription(e2).value|;
    }
  }

  /** The two messages the app shows most often, word for word. */
  lemma DecodeAndNetworkTexts()
    ensures ErrorDescription(DecodeError) == Some("Ocorreu um erro com decode dos dados")
    ensures ErrorDescription(NetworkFailure) == Some("Ocorreu um erro,verifique sua conexão")
  {
  }

  /** Searches `cases` for the one whose description is `message`. */
  function FindCase(message: string, cases: seq<NetworkError>): (r: Option<NetworkError>)
    ensures r.Some? ==> r.value in cases && ErrorDescription(r.value) == Some(message)
    ensures r.None? ==> forall e :: e in cases ==> ErrorDescription(e) != Some(message)
  {
    if |cases| == 0 then None
    else if ErrorDescription(cases[0]) == Some(message) then Some(cases[0])
    else FindCase(message, cases[1..])
  }

  /** Recovers the case from the message it shows, if any case shows it. */
  function CaseForDescription(message: string): (r: Option<NetworkError>)
    ensures r.Some? <==> exists e :: ErrorDescription(e) == Some(message)
    ensures r.Some? ==> ErrorDescription(r.value) == Some(message)
  {
    var r := FindCase(message, AllCases);
    assert r.None? ==> forall e :: ErrorDescription(e) != Some(message) by {
      forall e ensures e in AllCases { ExactlyFiveCases(e); }
    }
    r
  }

  /** Round trip: the message of a case identifies that case. */
  lemma DescriptionRoundTrip(e: NetworkError)
    ensures CaseForDescription(ErrorDescription(e).value) == Some(e)
  {
    var r := CaseForDescription(ErrorDescription(e).value);
    DescriptionsDistinct(e, r.value);
  }
}

=== FILE: options.dfy ===
/** Swift's optional values (`T?`), as used by the login screen's text fields and
    by `LocalizedError.errorDescription`. */
module Options {

  datatype Option<+T> = None | Some(value: T) {

    /** Swift's nil-coalescing operator: `self ?? default`. */
    function GetOr(default: T): T {
      match this
      case Some(v) => v
      case None => default
    }
  }
}

=== FILE: password_toggle.dfy ===
/** The show-password button: a Boolean flag, the password field's secure-entry
    mode and the button's system-image name. */
module PasswordToggle {

  /** Icon shown while the password is masked. */
  const EyeIcon: string := "eye"
  /** Icon shown while the password is visible. */
  const EyeSlashIcon: string := "eye.slash"

  datatype Toggle = Toggle(showPassword: bool, secureEntry: bool, iconName: string)

  /** The icon that goes with a secure-entry mode. */
  function IconFor(secureEntry: bool): string {
    if secureEntry then EyeIcon else EyeSlashIcon
  }

  /** The flag mirrors the field's mode and the icon matches it. */
  ghost predicate Consistent(t: Toggle) {
    && t.secureEntry == t.showPassword
    && t.iconName == IconFor(t.secureEntry)
  }

  /** State at load: the flag starts `true`; the field's mode and the icon are
      whatever the storyboard set. */
  function Initial(secureEntry: bool, iconName: string): (t: Toggle)
    ensures t.showPassword
  {
    Toggle(true, secureEntry, iconName)
  }

  /** `shouldShowOrHiddenPasswordInput`: a set flag reveals the password and
      shows the slashed eye; a clear flag masks it and shows the plain eye. */
  function ShowOrHidePasswordInput(t: Toggle): (r: Toggle)
    ensures r.showPassword == t.showPassword
    ensures r.secureEntry == !t.showPassword
    ensures r.iconName == IconFor(r.secureEntry)
  {
    if t.showPassword then
      t.(secureEntry := false, iconName := EyeSlashIcon)
    else
      t.(secureEntry := true, iconName := EyeIcon)
  }

  /** The `showPassword` action: apply the flag to the field, then toggle the flag.
      Whatever the state before, the state after is consistent and the flag flipped. */
  function PressShow(t: Toggle): (r: Toggle)
    ensures Consistent(r)
    ensures r.showPassword == !t.showPassword
  {
    var applied := ShowOrHidePasswordInput(t);
    applied.(showPassword := !applied.showPassword)
  }

  /** Two presses restore the flag; from a consistent state they restore everything. */
  lemma DoublePressRestores(t: Toggle)
    ensures PressShow(PressShow(t)).showPassword == t.showPassword
    ensures Consistent(t) ==> PressShow(PressShow(t)) == t
  {
  }

  /** From the state at load, the first press reveals the password and the second
      masks it again. */
  lemma InitialPresses(secureEntry: bool, iconName: string)
    ensures var once := PressShow(Initial(secureEntry, iconName));
      !once.secureEntry && once.iconName == EyeSlashIcon
    ensures var twice := PressShow(PressShow(Initial(secureEntry, iconName)));
      twice.secureEntry && twice.iconName == EyeIcon && twice.showPassword
  {
  }

  /** The state after `n` presses. */
  function Presses(t: Toggle, n: nat): Toggle {
    if n == 0 then t else PressShow(Presses(t, n - 1))
  }

  /** After any positive number of presses the state is consistent, and the flag
      equals its original value exactly when the number of presses is even. */
  lemma {:induction false} PressesParity(t: Toggle, n: nat)
    ensures n > 0 ==> Consistent(Presses(t, n))
    ensures Presses(t, n).showPassword == (t.showPassword == (n % 2 == 0))
  {
    if n > 0 {
      PressesParity(t, n - 1);
    }
  }
}
